=== FILE: README.md ===
# census — a verified model of the CSV combiner

`census` is a small command-line tool with four commands over comma-separated
files:

- **combine** walks a directory tree and collects every file whose name ends in
  `.csv`. It loads each file, skipping any that fail to load. It normalises the
  column names: lower-case, then spaces become `_`. It concatenates the tables
  with an outer union of columns. If the result has an `mrn` column, it drops
  every row whose `mrn` repeats an earlier row's. It writes the result, by
  default to `combined.csv`.
- **columns** lists the header of one file, exactly as loaded.
- **sample** shows the first ten values of one column.
- **filter** keeps the rows whose cell text, in one column, contains a match
  of a regular expression. If no row matches, it reports "no matches" and
  writes nothing. Otherwise it writes the rows to the given output name, or to
  a name derived from the source file and the column.

The model works over an abstract table (`Tables.Table`). A table is a
sequence of column names plus a sequence of rows. Each row maps a column name
to a `Cell`, which is either `Present(raw)` or `Missing`. `Present(raw)` stands for the
value as the library parsed it, after `concat` has given each column one type. So
`read` returns equal cells exactly for values the library treats as equal: `07` and `7`
in a numeric column, or `1` and `1.0` once a column is float. De-duplication and
filtering compare cells with `==` on this representation.

Modules, one per component:

- `Sequences` (sequences.dfy): selection by a boolean mask (`df[mask]`) and
  order-preserving subsequences. Row filtering and `drop_duplicates` are both
  mask selections, so one set of proofs serves both.
- `Names` (names.dfy): `str.lower` (ASCII letters), `str.replace`,
  `str.endswith`, `os.path.basename`, `os.path.join`, and column-name
  normalisation.
- `Discovery` (discovery.dfy): the nested loop over the directory walk that
  collects the `.csv` paths. It is a method proved against `CsvPaths`.
- `Combine` (combine.dfy): the load loop (a method proved against
  `LoadedTables`), table normalisation, outer-union concatenation,
  keep-first de-duplication, and the `combine` command as a method
  (`Combine`) proved against the function `CombineResult`.
- `Commands` (commands.dfy): `columns`, `sample` and `filter`, and the derived
  output name.

Inputs that come from outside the program are parameters:

- the directory walk is a sequence of `WalkStep`s, in the order `os.walk`
  yields them;
- loading a file is a total function `read: string -> Result<Table>`;
- the compiled regular expression is `Result<string -> bool>`, where an error
  stands for an invalid pattern;
- the `astype(str)` rendering of a cell is `render: Cell -> string`.

Some behaviours of the code are easy to misread; the model follows the code:

- When every collected file fails to load, the code calls `pd.concat` on an
  empty list. That call raises, and nothing catches it. The model returns
  `ConcatFailed`. It does not report a guarded "nothing to combine".
- The code compiles the regular expression after the column check, not before
  it. An invalid pattern is reported through the same handler as a load error
  (`FilterFailed`).
- The derived output name removes every occurrence of `.csv` from the base
  name, not only the extension.
- `output or derived`: an empty output string also falls back to the derived
  name.
- The combined column order is the order of first appearance across the
  loaded tables. This is what `pd.concat` does when it does not sort.

## Model

| member | source | states |
|---|---|---|
| `Sequences.Mask` | census/app.py:116-118 | a mask selection has no more rows than its input, and every row it has comes from the input |
| `Sequences.Positions` | census/app.py:116-118 | the selected indices are in range and each has its mask entry set |
| `Sequences.PositionsComplete` | census/app.py:116-118 | the selected indices increase strictly and include every index whose mask entry is set |
| `Sequences.MaskAt` | census/app.py:116-118 | `df[mask]` is the input read at the increasing selected positions: it keeps exactly the rows whose entry is set, in their original order |
| `Sequences.MaskIsSubsequence` | census/app.py:116-118 | a mask selection is an order-preserving subsequence of its input |
| `Sequences.MaskKeepAll` | census/app.py:116-118 | a mask that keeps every row returns the input unchanged |
| `Sequences.MaskEmpty` | census/app.py:116-120 | a mask selection is empty exactly when no mask entry is set |
| `Names.Lower` | census/app.py:37 | lower-casing keeps the length and lower-cases each character in place |
| `Names.ReplaceCharAt` | census/app.py:37 | replacing one character by another keeps the length and rewrites exactly the positions that held it |
| `Names.NormalizeNameAt` | census/app.py:36-38 | normalisation keeps the length; it lower-cases ASCII letters, turns each space into `_`, and leaves every other character unchanged |
| `Names.NormalizeNameIsNormalized` | census/app.py:36-38 | a normalised name has no upper-case letter and no space |
| `Names.NormalizedNameFixed` | census/app.py:36-38 | a name that is already normalised is left as it is |
| `Names.NormalizeNameIdempotent` | census/app.py:36-38 | normalising twice gives the same name as normalising once |
| `Names.ReplaceAll` | census/app.py:37 | no contract of its own: left-to-right, non-overlapping `str.replace`; specified by `Names.ReplaceAllHit`, `Names.ReplaceCharAt`, `Names.RemoveCsvAfterStem` and `Names.RemoveCsvNone` |
| `Names.NormalizeName` | census/app.py:37 | no contract of its own: `lower()` then spaces to `_`; specified by `Names.NormalizeNameAt`, `Names.NormalizeNameIsNormalized`, `Names.NormalizedNameFixed` and `Names.NormalizeNameIdempotent` |
| `Names.NormalizeNames` | census/app.py:36-38 | the comprehension gives one name per column; order and content are stated by `Names.NormalizeNamesKeepsOrder` |
| `Names.NormalizeNamesKeepsOrder` | census/app.py:36-38 | renaming the columns keeps their number and order, renames each in place, and is idempotent |
| `Names.EndsWithTrans` | census/app.py:23-24 | a path that ends with a file name ending in `.csv` itself ends in `.csv` |
| `Names.Join` | census/app.py:24 | `os.path.join(root, name)` ends with `name` |
| `Names.Basename` | census/app.py:125 | `os.path.basename` is a suffix of the path with no `/`, preceded by a `/` whenever it is shorter than the path |
| `Names.BasenameOfName` | census/app.py:125 | the base name of `dir/name` is `name` when `name` has no `/` |
| `Names.ReplaceAllHit` | census/app.py:125 | `str.replace` substitutes an occurrence at the front and resumes after it |
| `Names.CsvNotAtStart` | census/app.py:125 | for a non-empty stem without `.csv`, `.csv` does not start at the front of `stem + ".csv"` |
| `Names.ContainsTail` | census/app.py:125 | a stem without `.csv` has a tail without `.csv` |
| `Names.RemoveCsvAfterStem` | census/app.py:125 | removing `.csv` from `stem + ".csv" + rest`, where the stem has no `.csv`, keeps the stem and continues with the rest |
| `Names.RemoveCsvNone` | census/app.py:125 | text that contains no `.csv` comes through `replace('.csv', '')` unchanged |
| `Discovery.CsvFilesIn` | census/app.py:22-26 | no contract of its own: the `.csv` paths of one directory, in listing order; specified by `Discovery.CsvFilesInAppend`, `Discovery.CsvFilesInOne` and `Discovery.CsvFilesInExactly` |
| `Discovery.CsvPaths` | census/app.py:21-26 | no contract of its own: the paths the walk loop collects; specified by `Discovery.CsvPathsAppend`, `Discovery.CsvPathsExactly`, `Discovery.CsvPathsEndInCsv` and `Discovery.CsvPathsEmpty` |
| `Discovery.FindCsvFiles` | census/app.py:20-26 | the nested loop over the walk returns exactly `CsvPaths(walk)` |
| `Discovery.CsvPathsAppend` | census/app.py:21-26 | traversal order is kept: the paths of earlier walk steps come first |
| `Discovery.CsvFilesInExactly` | census/app.py:22-26 | within one directory, a path is collected exactly when it joins the root with a listed name ending in `.csv` |
| `Discovery.CsvFilesInAppend` | census/app.py:22-26 | listing order is kept within a directory: the paths of earlier names come before those of later names |
| `Discovery.CsvFilesInOne` | census/app.py:23-26 | a single listed name yields its joined path when it ends in `.csv`, and nothing otherwise |
| `Discovery.CsvPathsExactly` | census/app.py:21-26 | only names ending in `.csv` are collected, each as the joined path of a listed file, and every such file is collected |
| `Discovery.CsvPathsEndInCsv` | census/app.py:23-26 | every collected path ends in `.csv` |
| `Discovery.CsvPathsEmpty` | census/app.py:28-30 | nothing is collected exactly when no listed name ends in `.csv` |
| `Combine.LoadableRowsRename` | census/app.py:36-38 | when normalised names are distinct, no two keys of a row collapse to one name |
| `Combine.NormalizeTable` | census/app.py:36-38 | no contract of its own: renames every column and row key; specified by `Combine.NormalizeTableSpec` |
| `Combine.RenameRowSpec` | census/app.py:36-38 | a renamed row has exactly the normalised columns as keys, and each value sits under the renamed name of its old column |
| `Combine.NormalizeTableSpec` | census/app.py:35-38 | the renamed table is well formed; its columns are the normalised names in the same order; it has the same rows; each value moves from its old column to the renamed one |
| `Combine.LoadedTables` | census/app.py:32-41 | every collected table is well formed |
| `Combine.LoadTables` | census/app.py:32-41 | the try/append loop returns exactly `LoadedTables(csvFiles, read)` |
| `Combine.LoadedMask` | census/app.py:33-35 | there is one load flag per collected path |
| `Combine.LoadedTablesInOrder` | census/app.py:32-41 | the collected tables are the normalised tables of the paths that loaded, one each, in discovery order; failed paths contribute nothing |
| `Combine.LoadedColumns` | census/app.py:36-39 | a name is a column of some collected table exactly when it is the normalised name of a column of some file that loaded |
| `Combine.NothingLoaded` | census/app.py:32-41 | nothing is collected exactly when every path fails to load |
| `Combine.Pad` | census/app.py:45 | no contract of its own: widens one row to the combined columns; specified by `Combine.PadCell` |
| `Combine.PadRows` | census/app.py:45 | widening a table's rows to the combined columns keeps their number |
| `Combine.ConcatRows` | census/app.py:45 | the concatenation has as many rows as all loaded tables together |
| `Combine.UnionNames` | census/app.py:45 | no contract of its own: adds one table's new columns; specified by `Combine.UnionNamesSpec` |
| `Combine.UnionColumns` | census/app.py:45 | no contract of its own: the outer union of all columns; specified by `Combine.UnionColumnsSpec`, `Combine.UnionColumnsPrefix`, `Combine.UnionColumnsOne` and `Combine.UnionColumnsStep` |
| `Combine.Concat` | census/app.py:45 | no contract of its own: fails on an empty list, otherwise union columns over the padded rows; specified by `Combine.ConcatWellFormed`, `Combine.ConcatRowAt` and `Combine.CombineFailsWhenNothingLoads` |
| `Combine.UnionNamesSpec` | census/app.py:45 | the column union keeps the earlier columns in front, then adds the new names in the other table's order, each once, and repeats no name |
| `Combine.UnionColumnsSpec` | census/app.py:45 | the combined columns are the union of the tables' columns, each once |
| `Combine.UnionColumnsPrefix` | census/app.py:45 | the columns combined from the first `k` tables are a prefix of the final columns, and the first table's columns lead, in their order |
| `Combine.UnionColumnsOne` | census/app.py:45 | a single table's combined columns are its own columns, in its order |
| `Combine.UnionColumnsStep` | census/app.py:45 | column order is first appearance: table `k` appends exactly its columns that no earlier table has, in its own order |
| `Combine.ConcatRowAt` | census/app.py:45 | row `j` of table `k` is the combined row at offset (rows of the earlier tables) + `j`, so the rows appear file by file, in order |
| `Combine.ConcatRowsPadded` | census/app.py:45 | every combined row has exactly the combined columns |
| `Combine.ConcatWellFormed` | census/app.py:45 | the concatenation of well-formed tables is well formed |
| `Combine.PadCell` | census/app.py:45 | a combined cell is the file's own cell where the file has the column, and `Missing` where it lacks it |
| `Combine.IsFirst` | census/app.py:48 | no contract of its own: no earlier row has the same key, the complement of `duplicated(keep="first")`; used by `Combine.DropDuplicatesKeepsFirstRows` |
| `Combine.KeepFirstMask` | census/app.py:48 | there is one keep flag per row |
| `Combine.DropDuplicates` | census/app.py:48 | every kept row still has the key column |
| `Combine.FirstOccurrence` | census/app.py:48 | every row's key has a first occurrence at or before it |
| `Combine.DropDuplicatesIsSubsequence` | census/app.py:48 | de-duplication keeps an order-preserving subsequence of the rows |
| `Combine.DropDuplicatesUnique` | census/app.py:48 | no two kept rows share a key value; `Missing` counts as a value |
| `Combine.DropDuplicatesKeepsFirstRows` | census/app.py:48 | the kept rows are exactly the rows that are the first of their key |
| `Combine.DropDuplicatesAt` | census/app.py:48 | the kept rows are the input rows at the increasing positions of exactly the first row of each key, so their order is the input order |
| `Combine.DropDuplicatesKeepsEveryKey` | census/app.py:48 | every key value of the input survives de-duplication |
| `Combine.CombineTables` | census/app.py:45-51 | no contract of its own: concatenate, then de-duplicate on `mrn` when present; specified by `Combine.CombineTablesShape` |
| `Combine.CombineResult` | census/app.py:15-52 | no contract of its own: what `combine` produces; specified by `Combine.CombineStopsWithoutCsv`, `Combine.CombineFailsWhenNothingLoads`, `Combine.CombineColumns`, `Combine.CombineWithoutId`, `Combine.CombineWithIdUnique`, `Combine.CombineWithIdFirstRows`, `Combine.CombineWithIdAt` and `Combine.CombineWritesOutput` |
| `Combine.CombineTablesShape` | census/app.py:45-48 | the written table has the union columns and is the concatenation, de-duplicated on `mrn` exactly when `mrn` is a column |
| `Combine.CombineWritesOutput` | census/app.py:45-51 | a written result goes to the `output` name, and every written row has exactly the written columns |
| `Combine.Combine` | census/app.py:15-52 | the `combine` command body returns exactly `CombineResult(walk, read, output)` |
| `Combine.CombineStopsWithoutCsv` | census/app.py:28-30 | combine stops and writes nothing exactly when the walk lists no name ending in `.csv` |
| `Combine.CombineFailsWhenNothingLoads` | census/app.py:32-45 | the unguarded concatenation fails exactly when files were found but none of them loaded |
| `Combine.CombineColumns` | census/app.py:36-48 | the written columns are distinct and are the union of the normalised columns of the files that loaded; de-duplication happens exactly when `mrn` is among them |
| `Combine.CombineWithoutId` | census/app.py:45-51 | without `mrn`, the row count is the sum of the loaded row counts; the rows appear file by file, in order; each cell is the file's own cell where the file has the column, and `Missing` where it lacks it |
| `Combine.CombineWithIdUnique` | census/app.py:47-48 | with `mrn`, the rows are an order-preserving subsequence of the concatenation, and no two rows share an `mrn`, `Missing` included |
| `Combine.CombineWithIdFirstRows` | census/app.py:47-48 | with `mrn`, each kept row is the first row of its `mrn` in the concatenation, and every `mrn` of the concatenation survives |
| `Combine.CombineWithIdAt` | census/app.py:45-48 | with `mrn`, the written rows are the concatenated rows at the increasing positions of exactly the first row of each `mrn`, in concatenation order |
| `Commands.ListColumns` | census/app.py:57-69 | `columns` lists the header exactly as loaded, with no normalisation, or reports the load error |
| `Commands.ColumnValues` | census/app.py:88 | a column has one value per row |
| `Commands.Head` | census/app.py:88 | `head(n)` is a prefix of length `min(n, length)` |
| `Commands.Sample` | census/app.py:75-91 | a load failure or a missing column gives no values; otherwise the result is the first `min(10, row count)` values of the column, in row order |
| `Commands.MatchMask` | census/app.py:117 | there is one match flag per row |
| `Commands.FilterRows` | census/app.py:116-118 | filtering keeps the columns |
| `Commands.DerivedOutputName` | census/app.py:125 | no contract of its own: `filtered_` + base name with every `.csv` removed + `_` + column + `.csv`; specified by `Commands.DerivedOutputNameShape`, `Commands.DerivedOutputNameOfStem`, `Commands.DerivedOutputNameNoCsv` and `Commands.DerivedOutputNameRemovesInnerCsv`; with `Names.RemoveCsvAfterStem` and `Names.RemoveCsvNone` the removal is fixed for every base name |
| `Commands.OutputName` | census/app.py:123-126 | a non-empty output is used as given; an absent or empty output gives the derived name |
| `Commands.FilterRowsSpec` | census/app.py:116-118 | the filtered table is well formed; its rows are an order-preserving subsequence of the source rows; every kept row matches; every matching row is kept |
| `Commands.FilterRowsAt` | census/app.py:116-118 | the filtered rows are the source rows read at the increasing positions of exactly the matching rows, so a repeated matching row is kept as often as it occurs |
| `Commands.FilterRowsIdempotent` | census/app.py:116-118 | filtering the filtered table again with the same column and pattern changes nothing |
| `Commands.Filter` | census/app.py:105-131 | no contract of its own: the `filter` command body; specified by `Commands.FilterOutcomes`, `Commands.FilterNoMatches` and `Commands.FilterSaved` |
| `Commands.FilterOutcomes` | census/app.py:105-131 | a missing column is reported exactly when the file loaded without it; failure exactly on a load error or, once the column is found, an invalid pattern; the matching rows are saved exactly when the file loaded, has the column, the pattern compiled, and some row matches |
| `Commands.FilterNoMatches` | census/app.py:105-121 | "no matches" is reported, and nothing written, exactly when the file loaded, has the column, the pattern compiled, and no row matches |
| `Commands.FilterSaved` | census/app.py:105-128 | a saved result has at least one row; it holds exactly the matching rows under the chosen name; filtering it again saves the same table |
| `Commands.DerivedOutputNameShape` | census/app.py:125 | the derived name starts with `filtered_` and ends with `_<column>.csv` |
| `Commands.DerivedOutputNameOfStem` | census/app.py:125 | for a base name `<stem>.csv` whose stem has no `.csv`, the derived name is `filtered_<stem>_<column>.csv` |
| `Commands.DerivedOutputNameNoCsv` | census/app.py:125 | a base name without `.csv` is kept whole: `data.txt` gives `filtered_data.txt_<column>.csv` |
| `Commands.DerivedOutputNameRemovesInnerCsv` | census/app.py:125 | every `.csv` in the base name is removed, not only the suffix: `dir/<a>.csv<b>.csv` gives `filtered_<a><b>_<column>.csv` |

## Left out

- Command-line parsing, help text, default arguments and the check that a path exists (census/app.py:7-14, 55-56, 72-74, 94-98, 134-135). These belong to the command-line framework.
- Every message echoed or printed, including `print(pattern)`. The outcome datatypes tell the final messages apart (no files, failed, written, column not found, no matches, saved) but carry no text. The per-file "Found CSV file" (census/app.py:25) and "Issue processing file" (census/app.py:41) messages are dropped altogether. Which paths would produce them follows from `CsvPaths(walk)` and `read`.
- Real directory traversal. The walk is an input, and the order of names within a directory is whatever the walk lists.
- CSV decoding and encoding, dtype inference, and the library's renaming of repeated header names. Cells stand for parsed values, so which raw texts compare equal is decided by `read`, not by the model. Loading is the `read` parameter; writing is the `Written`/`Saved` outcome. A failure while writing the output is not modelled.
- The regular-expression engine. The compiled pattern is a predicate on cell text, and an invalid pattern is its `Err` case.
- The text rendering of cell values (`astype(str)`, including floats and NaN). It is the `render` parameter.
- Unicode case mapping. `Names.Lower` lower-cases ASCII letters only.
- Paths follow POSIX `os.path`. `Names.Join` and `Names.Basename` treat only `/` as a separator; on Windows `\` also separates, which would change the derived output name.
- Tables in which two columns normalise to the same name, for example `Name` and `name`. The library's behaviour there is its own, so `Combine.Loadable` requires normalised names to be distinct.
- `Commands.FilterRowsIdempotent`: it re-filters the table in memory. It does not model writing the table to CSV and reading it back, where dtype inference may change how a cell is rendered.
- `Combine.LoadedTables`: its own contract states only that the tables are well formed. The order and content are stated by `Combine.LoadedTablesInOrder`.

=== FILE: combine.dfy ===
/** The `combine` command: collect the ".csv" files of a walk, load each
    (skipping those that fail), normalise column names, concatenate with an
    outer union of columns, and drop rows whose "mrn" repeats an earlier one. */
module Combine {
  import opened Tables
  import opened Sequences
  import opened Names
  import opened Discovery

  /** The identifier column that triggers de-duplication. */
  const IdColumn := "mrn"

  const NothingToConcatenate := "No objects to concatenate"

  // ---------------------------------------------------------------------
  // Normalising the column names of one loaded table

  /** No two columns of a table normalise to the same name. */
  predicate RenamingInjective(columns: seq<string>)
  {
    forall i, j :: 0 <= i < j < |columns| ==> NormalizeName(columns[i]) != NormalizeName(columns[j])
  }

  /** What the model needs of a table the library loaded. */
  predicate Loadable(t: Table)
  {
    WellFormed(t) && RenamingInjective(t.columns)
  }

  predicate KeysRenameInjectively(row: Row)
  {
    forall a, b :: a in row && b in row && NormalizeName(a) == NormalizeName(b) ==> a == b
  }

  function RenameRow(row: Row): Row
    requires KeysRenameInjectively(row)
  {
    map k | k in row :: NormalizeName(k) := row[k]
  }

  lemma LoadableRowsRename(t: Table)
    requires Loadable(t)
    ensures forall j :: 0 <= j < |t.rows| ==> KeysRenameInjectively(t.rows[j])
  {
    forall j, a, b | 0 <= j < |t.rows| && a in t.rows[j] && b in t.rows[j] && NormalizeName(a) == NormalizeName(b)
      ensures a == b
    {
      assert a in ColumnSet(t.columns) && b in ColumnSet(t.columns);
      var i :| 0 <= i < |t.columns| && t.columns[i] == a;
      var k :| 0 <= k < |t.columns| && t.columns[k] == b;
      assert NormalizeName(t.columns[i]) == NormalizeName(t.columns[k]);
    }
  }

  /** Renames every column, and every row key, to its normalised name. */
  function NormalizeTable(t: Table): Table
    requires Loadable(t)
  {
    LoadableRowsRename(t);
    Table(NormalizeNames(t.columns),
          seq(|t.rows|, j requires 0 <= j < |t.rows| && KeysRenameInjectively(t.rows[j]) => RenameRow(t.rows[j])))
  }

  /** Renaming one row gives it exactly the normalised columns, and each
      value moves from its old column to the renamed one. */
  lemma RenameRowSpec(row: Row, columns: seq<string>)
    requires row.Keys == ColumnSet(columns) && KeysRenameInjectively(row)
    ensures RenameRow(row).Keys == ColumnSet(NormalizeNames(columns))
    ensures forall i :: 0 <= i < |columns| ==>
      NormalizeName(columns[i]) in RenameRow(row) && RenameRow(row)[NormalizeName(columns[i])] == row[columns[i]]
  {
    var names := NormalizeNames(columns);
    var r := RenameRow(row);
    forall c | c in r.Keys ensures c in ColumnSet(names) {
      var k :| k in row && NormalizeName(k) == c;
      assert k in ColumnSet(columns);
      var i :| 0 <= i < |columns| && columns[i] == k;
      assert names[i] == c;
    }
    forall c | c in ColumnSet(names) ensures c in r.Keys {
      var i :| 0 <= i < |names| && names[i] == c;
      assert columns[i] in row;
    }
    forall i | 0 <= i < |columns|
      ensures NormalizeName(columns[i]) in r && r[NormalizeName(columns[i])] == row[columns[i]]
    {
      assert columns[i] in row.Keys;
    }
  }

  /** Renaming keeps the table well formed, keeps every row, and moves each
      value from its old column to the renamed one. */
  lemma NormalizeTableSpec(t: Table)
    requires Loadable(t)
    ensures WellFormed(NormalizeTable(t))
    ensures NormalizeTable(t).columns == NormalizeNames(t.columns)
    ensures |NormalizeTable(t).rows| == |t.rows|
    ensures forall j, i :: 0 <= j < |t.rows| && 0 <= i < |t.columns| ==>
      NormalizeName(t.columns[i]) in NormalizeTable(t).rows[j] &&
      NormalizeTable(t).rows[j][NormalizeName(t.columns[i])] == t.rows[j][t.columns[i]]
  {
    var r := NormalizeTable(t);
    var names := NormalizeNames(t.columns);
    LoadableRowsRename(t);
    assert Distinct(names);
    forall j | 0 <= j < |t.rows|
      ensures r.rows[j].Keys == ColumnSet(names)
      ensures forall i :: 0 <= i < |t.columns| ==>
        NormalizeName(t.columns[i]) in r.rows[j] && r.rows[j][NormalizeName(t.columns[i])] == t.rows[j][t.columns[i]]
    {
      assert r.rows[j] == RenameRow(t.rows[j]);
      RenameRowSpec(t.rows[j], t.columns);
    }
  }

  // ---------------------------------------------------------------------
  // Loading the collected files

  /** Every table the library returns for these paths is loadable. */
  predicate LoadsCleanly(read: string -> Result<Table>, paths: seq<string>)
  {
    forall p :: p in paths && read(p).Ok? ==> Loadable(read(p).value)
  }

  /** The normalised tables of the files that loaded, in discovery order. */
  function LoadedTables(paths: seq<string>, read: string -> Result<Table>): (ts: seq<Table>)
    requires LoadsCleanly(read, paths)
    ensures forall k :: 0 <= k < |ts| ==> WellFormed(ts[k])
  {
    if paths == [] then []
    else
      var f := paths[|paths| - 1];
      var before := LoadedTables(paths[..|paths| - 1], read);
      match read(f)
      case Ok(t) => NormalizeTableSpec(t); before + [NormalizeTable(t)]
      case Err(_) => before
  }

  /** The try/append loop that builds `dataframes`; a file that fails to
      load is skipped. */
  method LoadTables(csvFiles: seq<string>, read: string -> Result<Table>) returns (dataframes: seq<Table>)
    requires LoadsCleanly(read, csvFiles)
    ensures dataframes == LoadedTables(csvFiles, read)
  {
    dataframes := [];
    var i := 0;
    while i < |csvFiles|
      invariant 0 <= i <= |csvFiles|
      invariant dataframes == LoadedTables(csvFiles[..i], read)
    {
      var f := csvFiles[i];
      assert csvFiles[..i + 1][..i] == csvFiles[..i];
      match read(f) {
        case Ok(df) =>
          dataframes := dataframes + [NormalizeTable(df)];
        case Err(_) =>
      }
      i := i + 1;
    }
    assert csvFiles[..i] == csvFiles;
  }

  /** Which of the paths loaded. */
  function LoadedMask(paths: seq<string>, read: string -> Result<Table>): (m: seq<bool>)
    ensures |m| == |paths|
  {
    seq(|paths|, i requires 0 <= i < |paths| => read(paths[i]).Ok?)
  }

  /** The loaded tables are exactly the normalised tables of the paths that
      loaded, one each, in discovery order. */
  lemma {:induction false} LoadedTablesInOrder(paths: seq<string>, read: string -> Result<Table>)
    requires LoadsCleanly(read, paths)
    ensures |LoadedTables(paths, read)| == |Positions(LoadedMask(paths, read))|
    ensures forall k :: 0 <= k < |LoadedTables(paths, read)| ==>
      var i := Positions(LoadedMask(paths, read))[k];
      read(paths[i]).Ok? && LoadedTables(paths, read)[k] == NormalizeTable(read(paths[i]).value)
  {
    if paths != [] {
      var n := |paths| - 1;
      LoadedTablesInOrder(paths[..n], read);
      assert LoadedMask(paths, read)[..n] == LoadedMask(paths[..n], read);
    }
  }

  ghost predicate ColumnOfSome(ts: seq<Table>, c: string)
  {
    exists k :: 0 <= k < |ts| && c in ts[k].columns
  }

  /** A name is a column of some loaded table exactly when it is the
      normalised name of a column of some file that loaded. */
  lemma LoadedColumns(paths: seq<string>, read: string -> Result<Table>)
    requires LoadsCleanly(read, paths)
    ensures forall c :: ColumnOfSome(LoadedTables(paths, read), c) <==>
      exists p :: p in paths && read(p).Ok? && c in NormalizeNames(read(p).value.columns)
  {
    var ts := LoadedTables(paths, read);
    var m := LoadedMask(paths, read);
    var pos := Positions(m);
    LoadedTablesInOrder(paths, read);
    PositionsComplete(m);
    forall c | ColumnOfSome(ts, c)
      ensures exists p :: p in paths && read(p).Ok? && c in NormalizeNames(read(p).value.columns)
    {
      var k :| 0 <= k < |ts| && c in ts[k].columns;
      var p := paths[pos[k]];
      NormalizeTableSpec(read(p).value);
    }
    forall c, p | p in paths && read(p).Ok? && c in NormalizeNames(read(p).value.columns)
      ensures ColumnOfSome(ts, c)
    {
      var i :| 0 <= i < |paths| && paths[i] == p;
      assert m[i];
      var k :| 0 <= k < |pos| && pos[k] == i;
      NormalizeTableSpec(read(p).value);
      assert c in ts[k].columns;
    }
  }

  /** Nothing is loaded exactly when every collected file fails to load. */
  lemma NothingLoaded(paths: seq<string>, read: string -> Result<Table>)
    requires LoadsCleanly(read, paths)
    ensures LoadedTables(paths, read) == [] <==> forall p :: p in paths ==> read(p).Err?
  {
    var m := LoadedMask(paths, read);
    LoadedTablesInOrder(paths, read);
    PositionsComplete(m);
    if LoadedTables(paths, read) != [] {
      var i := Positions(m)[0];
      assert read(paths[i]).Ok?;
    }
    forall p | p in paths && read(p).Ok?
      ensures LoadedTables(paths, read) != []
    {
      var i :| 0 <= i < |paths| && paths[i] == p;
      assert m[i] && i in Positions(m);
    }
  }

  // ---------------------------------------------------------------------
  // Concatenation with an outer union of columns

  /** A row of one table, widened to the combined columns. */
  function Pad(row: Row, columns: seq<string>): Row
  {
    map c | c in columns :: if c in row then row[c] else Missing
  }

  function PadRows(rows: seq<Row>, columns: seq<string>): (r: seq<Row>)
    ensures |r| == |rows|
  {
    seq(|rows|, j requires 0 <= j < |rows| => Pad(rows[j], columns))
  }

  function TotalRows(ts: seq<Table>): nat
  {
    if ts == [] then 0 else TotalRows(ts[..|ts| - 1]) + |ts[|ts| - 1].rows|
  }

  /** The rows of all tables, table by table, widened to `columns`. */
  function ConcatRows(ts: seq<Table>, columns: seq<string>): (r: seq<Row>)
    ensures |r| == TotalRows(ts)
  {
    if ts == [] then []
    else ConcatRows(ts[..|ts| - 1], columns) + PadRows(ts[|ts| - 1].rows, columns)
  }

  /** `Index.union(other, sort=False)`: the names of `acc`, followed by the
      names of `columns` that `acc` lacks, in their order. */
  function UnionNames(acc: seq<string>, columns: seq<string>): seq<string>
  {
    acc + Mask(columns, seq(|columns|, i requires 0 <= i < |columns| => columns[i] !in acc))
  }

  /** The combined columns, in order of first appearance. */
  function UnionColumns(ts: seq<Table>): seq<string>
  {
    if ts == [] then [] else UnionNames(UnionColumns(ts[..|ts| - 1]), ts[|ts| - 1].columns)
  }

  /** `pd.concat(dataframes)`, which refuses an empty list. */
  function Concat(ts: seq<Table>): (r: Result<Table>)
  {
    if ts == [] then Err(NothingToConcatenate)
    else
      var columns := UnionColumns(ts);
      Ok(Table(columns, ConcatRows(ts, columns)))
  }

  /** The union keeps `acc` in front, adds each missing name once, and has
      no repeated name. */
  lemma UnionNamesSpec(acc: seq<string>, columns: seq<string>)
    requires Distinct(acc) && Distinct(columns)
    ensures Distinct(UnionNames(acc, columns))
    ensures acc <= UnionNames(acc, columns)
    ensures forall c :: c in UnionNames(acc, columns) <==> c in acc || c in columns
    ensures IsSubsequence(UnionNames(acc, columns)[|acc|..], columns)
  {
    var keep := seq(|columns|, i requires 0 <= i < |columns| => columns[i] !in acc);
    var added := Mask(columns, keep);
    var p := Positions(keep);
    MaskAt(columns, keep);
    var u := UnionNames(acc, columns);
    assert u == acc + added;
    MaskIsSubsequence(columns, keep);
    assert u[|acc|..] == added;
    forall i, j | 0 <= i < j < |u| ensures u[i] != u[j] {
      if j >= |acc| {
        var b := j - |acc|;
        assert u[j] == added[b] == columns[p[b]] && keep[p[b]];
        if i >= |acc| {
          var a := i - |acc|;
          assert u[i] == columns[p[a]] && p[a] < p[b];
        }
      }
    }
    forall c | c in columns && c !in acc ensures c in u {
      var i :| 0 <= i < |columns| && columns[i] == c;
      assert keep[i];
      var k :| 0 <= k < |p| && p[k] == i;
      assert added[k] == c;
    }
  }

  /** The combined columns are the union of the tables' columns, each once. */
  lemma {:induction false} UnionColumnsSpec(ts: seq<Table>)
    requires forall k :: 0 <= k < |ts| ==> Distinct(ts[k].columns)
    ensures Distinct(UnionColumns(ts))
    ensures forall c :: c in UnionColumns(ts) <==> ColumnOfSome(ts, c)
  {
    if ts != [] {
      var n := |ts| - 1;
      var prefix := ts[..n];
      UnionColumnsSpec(prefix);
      UnionNamesSpec(UnionColumns(prefix), ts[n].columns);
      forall c | c in UnionColumns(ts)
        ensures ColumnOfSome(ts, c)
      {
        if c !in ts[n].columns {
          var k :| 0 <= k < |prefix| && c in prefix[k].columns;
          assert c in ts[k].columns;
        } else {
          assert c in ts[n].columns;
        }
      }
      forall c | ColumnOfSome(ts, c)
        ensures c in UnionColumns(ts)
      {
        var k :| 0 <= k < |ts| && c in ts[k].columns;
        if k < n {
          assert c in prefix[k].columns;
          assert ColumnOfSome(prefix, c);
        }
      }
    }
  }

  /** Column order is first appearance: the columns combined from the first
      `k` tables are a prefix of the final columns, so the first table's
      columns lead, in their order. */
  lemma {:induction false} UnionColumnsPrefix(ts: seq<Table>, k: nat)
    requires k <= |ts|
    ensures UnionColumns(ts[..k]) <= UnionColumns(ts)
    ensures k == 1 ==> UnionColumns(ts[..k]) == ts[0].columns
  {
    if k < |ts| {
      var n := |ts| - 1;
      UnionColumnsPrefix(ts[..n], k);
      assert ts[..n][..k] == ts[..k];
    } else {
      assert ts[..k] == ts;
    }
    if k == 1 {
      assert ts[..1] == [ts[0]];
      UnionColumnsOne(ts[0]);
    }
  }

  /** A single table's combined columns are its own, in its order. */
  lemma UnionColumnsOne(t: Table)
    ensures UnionColumns([t]) == t.columns
  {
    var cols := t.columns;
    assert [t][..0] == [];
    MaskKeepAll(cols, seq(|cols|, i requires 0 <= i < |cols| => cols[i] !in []));
  }

  /** Table `k` adds its columns that no earlier table has, in its own
      order, after the columns of the earlier tables. */
  lemma UnionColumnsStep(ts: seq<Table>, k: nat)
    requires k < |ts|
    requires forall i :: 0 <= i < |ts| ==> Distinct(ts[i].columns)
    ensures UnionColumns(ts[..k]) <= UnionColumns(ts[..k + 1])
    ensures IsSubsequence(UnionColumns(ts[..k + 1])[|UnionColumns(ts[..k])|..], ts[k].columns)
    ensures forall c :: c in UnionColumns(ts[..k + 1])[|UnionColumns(ts[..k])|..] <==>
      c in ts[k].columns && !ColumnOfSome(ts[..k], c)
  {
    var before := ts[..k];
    assert ts[..k + 1][..k] == before && ts[..k + 1][k] == ts[k];
    UnionColumnsSpec(before);
    UnionNamesSpec(UnionColumns(before), ts[k].columns);
    var u := UnionColumns(ts[..k + 1]);
    var n := |UnionColumns(before)|;
    assert u == u[..n] + u[n..] && u[..n] == UnionColumns(before);
    forall c | c in u[n..] ensures c in ts[k].columns && !ColumnOfSome(before, c) {
      var i :| 0 <= i < |u[n..]| && u[n..][i] == c;
      assert u[n + i] == c;
      forall j | 0 <= j < n ensures u[j] != c {
        assert j < n + i;
      }
      assert c !in u[..n];
    }
  }

  /** Row `j` of table `k` is the combined row at offset (rows of the tables
      before `k`) + `j`: the rows appear table by table, in order. */
  lemma {:induction false} ConcatRowAt(ts: seq<Table>, columns: seq<string>, k: nat, j: nat)
    requires k < |ts| && j < |ts[k].rows|
    ensures TotalRows(ts[..k]) + j < TotalRows(ts)
    ensures ConcatRows(ts, columns)[TotalRows(ts[..k]) + j] == Pad(ts[k].rows[j], columns)
  {
    var n := |ts| - 1;
    var before := ConcatRows(ts[..n], columns);
    assert ConcatRows(ts, columns) == before + PadRows(ts[n].rows, columns);
    if k == n {
      assert ts[..k] == ts[..n];
      assert ConcatRows(ts, columns)[|before| + j] == PadRows(ts[n].rows, columns)[j];
    } else {
      ConcatRowAt(ts[..n], columns, k, j);
      assert ts[..n][..k] == ts[..k];
      assert ConcatRows(ts, columns)[TotalRows(ts[..k]) + j] == before[TotalRows(ts[..k]) + j];
    }
  }

  /** Every combined row has exactly the combined columns. */
  lemma {:induction false} ConcatRowsPadded(ts: seq<Table>, columns: seq<string>)
    ensures forall r :: r in ConcatRows(ts, columns) ==> r.Keys == ColumnSet(columns)
  {
    if ts != [] {
      ConcatRowsPadded(ts[..|ts| - 1], columns);
    }
  }

  /** The concatenation of well-formed tables is well formed. */
  lemma ConcatWellFormed(ts: seq<Table>)
    requires forall k :: 0 <= k < |ts| ==> WellFormed(ts[k])
    ensures Concat(ts).Ok? ==> WellFormed(Concat(ts).value)
  {
    if ts != [] {
      UnionColumnsSpec(ts);
      ConcatRowsPadded(ts, UnionColumns(ts));
    }
  }

  /** A combined cell is the source table's own cell where that table has
      the column, and `Missing` where it lacks it. */
  lemma PadCell(t: Table, j: nat, columns: seq<string>, c: string)
    requires WellFormed(t) && j < |t.rows| && c in columns
    ensures c in Pad(t.rows[j], columns)
    ensures c in t.columns ==> Pad(t.rows[j], columns)[c] == t.rows[j][c]
    ensures c !in t.columns ==> Pad(t.rows[j], columns)[c] == Missing
  {
    assert t.rows[j].Keys == ColumnSet(t.columns);
  }

  // ---------------------------------------------------------------------
  // Keep-first de-duplication on one column

  predicate HasColumn(rows: seq<Row>, key: string)
  {
    forall row :: row in rows ==> key in row
  }

  /** No earlier row carries the same value in `key`. */
  predicate IsFirst(rows: seq<Row>, key: string, i: nat)
    requires HasColumn(rows, key) && i < |rows|
  {
    forall j :: 0 <= j < i ==> rows[j][key] != rows[i][key]
  }

  /** The complement of `duplicated(subset=key, keep="first")`. */
  function KeepFirstMask(rows: seq<Row>, key: string): (keep: seq<bool>)
    requires HasColumn(rows, key)
    ensures |keep| == |rows|
  {
    seq(|rows|, i requires 0 <= i < |rows| => IsFirst(rows, key, i))
  }

  /** `drop_duplicates(subset=key)`: select the rows not marked duplicated. */
  function DropDuplicates(rows: seq<Row>, key: string): (r: seq<Row>)
    requires HasColumn(rows, key)
    ensures HasColumn(r, key)
  {
    Mask(rows, KeepFirstMask(rows, key))
  }

  /** Every row has a first occurrence of its key at or before it. */
  lemma FirstOccurrence(rows: seq<Row>, key: string, i: nat) returns (f: nat)
    requires HasColumn(rows, key) && i < |rows|
    ensures f <= i && rows[f][key] == rows[i][key] && IsFirst(rows, key, f)
    decreases i
  {
    if IsFirst(rows, key, i) {
      f := i;
    } else {
      var j :| 0 <= j < i && rows[j][key] == rows[i][key];
      f := FirstOccurrence(rows, key, j);
    }
  }

  /** The kept rows are the input rows read at the increasing positions of
      exactly the first rows of their key, one for one and in input order. */
  lemma DropDuplicatesAt(rows: seq<Row>, key: string)
    requires HasColumn(rows, key)
    ensures EmbedsAt(DropDuplicates(rows, key), rows, Positions(KeepFirstMask(rows, key)))
    ensures forall i :: 0 <= i < |rows| ==>
      (i in Positions(KeepFirstMask(rows, key)) <==> IsFirst(rows, key, i))
  {
    MaskAt(rows, KeepFirstMask(rows, key));
  }

  /** De-duplication keeps an order-preserving subsequence of the rows. */
  lemma DropDuplicatesIsSubsequence(rows: seq<Row>, key: string)
    requires HasColumn(rows, key)
    ensures IsSubsequence(DropDuplicates(rows, key), rows)
  {
    MaskIsSubsequence(rows, KeepFirstMask(rows, key));
  }

  /** No two kept rows share a key value (`Missing` included). */
  lemma DropDuplicatesUnique(rows: seq<Row>, key: string)
    requires HasColumn(rows, key)
    ensures forall a, b :: 0 <= a < b < |DropDuplicates(rows, key)| ==>
      DropDuplicates(rows, key)[a][key] != DropDuplicates(rows, key)[b][key]
  {
    var keep := KeepFirstMask(rows, key);
    var r := DropDuplicates(rows, key);
    var p := Positions(keep);
    MaskAt(rows, keep);
    forall a, b | 0 <= a < b < |r| ensures r[a][key] != r[b][key] {
      assert r[a] == rows[p[a]] && r[b] == rows[p[b]];
      assert p[a] < p[b] && keep[p[b]];
    }
  }

  /** The kept rows are exactly the first rows of their key. */
  lemma DropDuplicatesKeepsFirstRows(rows: seq<Row>, key: string)
    requires HasColumn(rows, key)
    ensures forall a :: 0 <= a < |DropDuplicates(rows, key)| ==>
      exists i :: 0 <= i < |rows| && IsFirst(rows, key, i) && DropDuplicates(rows, key)[a] == rows[i]
    ensures forall i :: 0 <= i < |rows| && IsFirst(rows, key, i) ==> rows[i] in DropDuplicates(rows, key)
  {
    var keep := KeepFirstMask(rows, key);
    var r := DropDuplicates(rows, key);
    var p := Positions(keep);
    MaskAt(rows, keep);
    forall a | 0 <= a < |r|
      ensures exists i :: 0 <= i < |rows| && IsFirst(rows, key, i) && r[a] == rows[i]
    {
      assert keep[p[a]] && r[a] == rows[p[a]];
    }
    forall i | 0 <= i < |rows| && IsFirst(rows, key, i) ensures rows[i] in r {
      assert keep[i];
      var a :| 0 <= a < |p| && p[a] == i;
      assert r[a] == rows[i];
    }
  }

  /** Every key value of the input survives de-duplication. */
  lemma DropDuplicatesKeepsEveryKey(rows: seq<Row>, key: string)
    requires HasColumn(rows, key)
    ensures forall i :: 0 <= i < |rows| ==>
      exists a :: 0 <= a < |DropDuplicates(rows, key)| && DropDuplicates(rows, key)[a][key] == rows[i][key]
  {
    var r := DropDuplicates(rows, key);
    DropDuplicatesKeepsFirstRows(rows, key);
    forall i | 0 <= i < |rows|
      ensures exists a :: 0 <= a < |r| && r[a][key] == rows[i][key]
    {
      var f := FirstOccurrence(rows, key, i);
      assert rows[f] in r;
      var a :| 0 <= a < |r| && r[a] == rows[f];
    }
  }

  // ---------------------------------------------------------------------
  // The whole command

  datatype CombineOutcome =
    | NoCsvFiles                     // "No CSV files found.": nothing is written
    | ConcatFailed(message: string)  // pd.concat raised; nothing is written
    | Written(path: string, table: Table, deduplicated: bool)

  /** Concatenate the loaded tables and, when the result has an "mrn"
      column, drop the rows that repeat an earlier "mrn". */
  function CombineTables(dataframes: seq<Table>, output: string): CombineOutcome
    requires forall k :: 0 <= k < |dataframes| ==> WellFormed(dataframes[k])
  {
    match Concat(dataframes)
    case Err(message) => ConcatFailed(message)
    case Ok(combined) =>
      if IdColumn in combined.columns then
        ConcatWellFormed(dataframes);
        assert HasColumn(combined.rows, IdColumn);
        Written(output, Table(combined.columns, DropDuplicates(combined.rows, IdColumn)), true)
      else
        Written(output, combined, false)
  }

  /** What `combine` produces for a walk, a loader and an output name. */
  function CombineResult(walk: seq<WalkStep>, read: string -> Result<Table>, output: string): CombineOutcome
    requires LoadsCleanly(read, CsvPaths(walk))
  {
    var csvFiles := CsvPaths(walk);
    if csvFiles == [] then NoCsvFiles
    else CombineTables(LoadedTables(csvFiles, read), output)
  }

  /** The `combine` command body. */
  method Combine(walk: seq<WalkStep>, read: string -> Result<Table>, output: string)
    returns (outcome: CombineOutcome)
    requires LoadsCleanly(read, CsvPaths(walk))
    ensures outcome == CombineResult(walk, read, output)
  {
    var csvFiles := FindCsvFiles(walk);
    if csvFiles == [] {
      return NoCsvFiles;
    }
    var dataframes := LoadTables(csvFiles, read);
    outcome := CombineTables(dataframes, output);
  }

  /** The written table is the concatenation, de-duplicated exactly when it
      has an "mrn" column. */
  lemma CombineTablesShape(dataframes: seq<Table>, output: string)
    requires forall k :: 0 <= k < |dataframes| ==> WellFormed(dataframes[k])
    requires CombineTables(dataframes, output).Written?
    ensures var r := CombineTables(dataframes, output);
      var all := ConcatRows(dataframes, r.table.columns);
      && r.table.columns == UnionColumns(dataframes)
      && (r.deduplicated <==> IdColumn in r.table.columns)
      && (r.deduplicated ==> HasColumn(all, IdColumn) && r.table.rows == DropDuplicates(all, IdColumn))
      && (!r.deduplicated ==> r.table.rows == all)
  {
    ConcatWellFormed(dataframes);
  }

  /** A written result goes to `output` and is a well-formed table: every
      row has exactly the written columns. */
  lemma CombineWritesOutput(walk: seq<WalkStep>, read: string -> Result<Table>, output: string)
    requires LoadsCleanly(read, CsvPaths(walk))
    requires CombineResult(walk, read, output).Written?
    ensures CombineResult(walk, read, output).path == output
    ensures WellFormed(CombineResult(walk, read, output).table)
  {
    var ts := LoadedTables(CsvPaths(walk), read);
    var t := CombineResult(walk, read, output).table;
    var all := ConcatRows(ts, t.columns);
    CombineTablesShape(ts, output);
    ConcatWellFormed(ts);
    assert Concat(ts).Ok? && Concat(ts).value == Table(t.columns, all);
    forall j | 0 <= j < |t.rows| ensures t.rows[j].Keys == ColumnSet(t.columns) {
      assert t.rows[j] in all;
    }
  }

  /** Combine stops, writing nothing, exactly when the walk lists no ".csv" name. */
  lemma CombineStopsWithoutCsv(walk: seq<WalkStep>, read: string -> Result<Table>, output: string)
    requires LoadsCleanly(read, CsvPaths(walk))
    ensures CombineResult(walk, read, output) == NoCsvFiles <==>
      forall s, f :: s in walk && f in s.files ==> !IsCsv(f)
  {
    CsvPathsEmpty(walk);
  }

  /** The unguarded concatenation fails exactly when files were found but
      none of them loaded. */
  lemma CombineFailsWhenNothingLoads(walk: seq<WalkStep>, read: string -> Result<Table>, output: string)
    requires LoadsCleanly(read, CsvPaths(walk))
    ensures CombineResult(walk, read, output).ConcatFailed? <==>
      CsvPaths(walk) != [] && forall p :: p in CsvPaths(walk) ==> read(p).Err?
  {
    NothingLoaded(CsvPaths(walk), read);
  }

  /** The combined columns are the union of the normalised columns of the
      files that loaded, each once; rows are de-duplicated exactly when
      "mrn" is among them. */
  lemma CombineColumns(walk: seq<WalkStep>, read: string -> Result<Table>, output: string)
    requires LoadsCleanly(read, CsvPaths(walk))
    requires CombineResult(walk, read, output).Written?
    ensures Distinct(CombineResult(walk, read, output).table.columns)
    ensures forall c :: c in CombineResult(walk, read, output).table.columns <==>
      exists p :: p in CsvPaths(walk) && read(p).Ok? && c in NormalizeNames(read(p).value.columns)
    ensures CombineResult(walk, read, output).deduplicated <==>
      IdColumn in CombineResult(walk, read, output).table.columns
  {
    var paths := CsvPaths(walk);
    var ts := LoadedTables(paths, read);
    CombineTablesShape(ts, output);
    UnionColumnsSpec(ts);
    LoadedColumns(paths, read);
  }

  /** Without an "mrn" column nothing is dropped: the combined rows are the
      loaded tables' rows, file by file; each cell is the file's own cell
      where the file has the column, and `Missing` where it lacks it. */
  lemma CombineWithoutId(walk: seq<WalkStep>, read: string -> Result<Table>, output: string, k: nat, j: nat)
    requires LoadsCleanly(read, CsvPaths(walk))
    requires CombineResult(walk, read, output).Written?
    requires !CombineResult(walk, read, output).deduplicated
    requires k < |LoadedTables(CsvPaths(walk), read)|
    requires j < |LoadedTables(CsvPaths(walk), read)[k].rows|
    ensures var ts := LoadedTables(CsvPaths(walk), read);
      var t := CombineResult(walk, read, output).table;
      && |t.rows| == TotalRows(ts)
      && TotalRows(ts[..k]) + j < |t.rows|
      && forall c :: c in t.columns ==>
           && c in t.rows[TotalRows(ts[..k]) + j]
           && t.rows[TotalRows(ts[..k]) + j][c] == (if c in ts[k].columns then ts[k].rows[j][c] else Missing)
  {
    var ts := LoadedTables(CsvPaths(walk), read);
    var t := CombineResult(walk, read, output).table;
    CombineTablesShape(ts, output);
    ConcatRowAt(ts, t.columns, k, j);
    forall c | c in t.columns
      ensures c in t.rows[TotalRows(ts[..k]) + j]
      ensures t.rows[TotalRows(ts[..k]) + j][c] == (if c in ts[k].columns then ts[k].rows[j][c] else Missing)
    {
      PadCell(ts[k], j, t.columns, c);
    }
  }

  /** With an "mrn" column the combined rows are an order-preserving
      subsequence of the concatenation in which no "mrn" value repeats. */
  lemma CombineWithIdUnique(walk: seq<WalkStep>, read: string -> Result<Table>, output: string)
    requires LoadsCleanly(read, CsvPaths(walk))
    requires CombineResult(walk, read, output).Written?
    requires CombineResult(walk, read, output).deduplicated
    ensures var t := CombineResult(walk, read, output).table;
      var all := ConcatRows(LoadedTables(CsvPaths(walk), read), t.columns);
      && HasColumn(t.rows, IdColumn)
      && IsSubsequence(t.rows, all)
      && forall a, b :: 0 <= a < b < |t.rows| ==> t.rows[a][IdColumn] != t.rows[b][IdColumn]
  {
    var ts := LoadedTables(CsvPaths(walk), read);
    var t := CombineResult(walk, read, output).table;
    var all := ConcatRows(ts, t.columns);
    CombineTablesShape(ts, output);
    DropDuplicatesIsSubsequence(all, IdColumn);
    DropDuplicatesUnique(all, IdColumn);
  }

  /** With an "mrn" column the written rows are the concatenated rows at the
      increasing positions of exactly the first row of each "mrn". */
  lemma CombineWithIdAt(walk: seq<WalkStep>, read: string -> Result<Table>, output: string)
    requires LoadsCleanly(read, CsvPaths(walk))
    requires CombineResult(walk, read, output).Written?
    requires CombineResult(walk, read, output).deduplicated
    ensures var t := CombineResult(walk, read, output).table;
      var all := ConcatRows(LoadedTables(CsvPaths(walk), read), t.columns);
      && HasColumn(all, IdColumn)
      && EmbedsAt(t.rows, all, Positions(KeepFirstMask(all, IdColumn)))
      && forall i :: 0 <= i < |all| ==>
           (i in Positions(KeepFirstMask(all, IdColumn)) <==> IsFirst(all, IdColumn, i))
  {
    var ts := LoadedTables(CsvPaths(walk), read);
    var t := CombineResult(walk, read, output).table;
    var all := ConcatRows(ts, t.columns);
    CombineTablesShape(ts, output);
    DropDuplicatesAt(all, IdColumn);
  }

  /** With an "mrn" column each kept row is the first row of its "mrn" in
      the concatenation, and every "mrn" of the concatenation survives. */
  lemma CombineWithIdFirstRows(walk: seq<WalkStep>, read: string -> Result<Table>, output: string)
    requires LoadsCleanly(read, CsvPaths(walk))
    requires CombineResult(walk, read, output).Written?
    requires CombineResult(walk, read, output).deduplicated
    ensures var t := CombineResult(walk, read, output).table;
      var all := ConcatRows(LoadedTables(CsvPaths(walk), read), t.columns);
      && HasColumn(all, IdColumn)
      && HasColumn(t.rows, IdColumn)
      && (forall a :: 0 <= a < |t.rows| ==>
            exists i :: 0 <= i < |all| && IsFirst(all, IdColumn, i) && t.rows[a] == all[i])
      && (forall i :: 0 <= i < |all| ==>
            exists a :: 0 <= a < |t.rows| && t.rows[a][IdColumn] == all[i][IdColumn])
  {
    var ts := LoadedTables(CsvPaths(walk), read);
    var t := CombineResult(walk, read, output).table;
    var all := ConcatRows(ts, t.columns);
    CombineTablesShape(ts, output);
    DropDuplicatesKeepsFirstRows(all, IdColumn);
    DropDuplicatesKeepsEveryKey(all, IdColumn);
  }
}

=== FILE: commands.dfy ===
/** The commands that work on one loaded table: `columns`, `sample` and
    `filter`. Each receives the outcome of loading its file. */
module Commands {
  import opened Tables
  import opened Sequences
  import opened Names

  /** How many values `sample` shows. */
  const SampleSize := 10

  const FilteredPrefix := "filtered_"

  // ---------------------------------------------------------------------
  // columns

  /** `columns`: the header exactly as loaded (no normalisation), or the
      load error. */
  function ListColumns(loaded: Result<Table>): (r: Result<seq<string>>)
    ensures r.Ok? <==> loaded.Ok?
    ensures r.Ok? ==> r.value == loaded.value.columns
    ensures r.Err? ==> r.message == loaded.message
  {
    match loaded
    case Ok(df) => Ok(df.columns)
    case Err(message) => Err(message)
  }

  // ---------------------------------------------------------------------
  // sample

  datatype SampleOutcome =
    | SampleFailed(message: string)
    | SampleColumnNotFound
    | Sampled(values: seq<Cell>)

  /** `df[column]`: the column's values in row order. */
  function ColumnValues(t: Table, column: string): (vs: seq<Cell>)
    requires WellFormed(t) && column in t.columns
    ensures |vs| == |t.rows|
  {
    seq(|t.rows|, i requires 0 <= i < |t.rows| => t.rows[i][column])
  }

  /** `head(n)`: at most the first `n` elements. */
  function Head<T>(xs: seq<T>, n: nat): (r: seq<T>)
    ensures r <= xs
    ensures |r| == if |xs| < n then |xs| else n
  {
    if |xs| <= n then xs else xs[..n]
  }

  /** `sample`: a load failure or an absent column yields no values;
      otherwise the first min(10, row count) values of the column, in row
      order. */
  function Sample(loaded: Result<Table>, column: string): (r: SampleOutcome)
    requires loaded.Ok? ==> WellFormed(loaded.value)
    ensures r.SampleFailed? <==> loaded.Err?
    ensures r.SampleColumnNotFound? <==> loaded.Ok? && column !in loaded.value.columns
    ensures r.Sampled? ==>
      && |r.values| <= SampleSize
      && |r.values| <= |loaded.value.rows|
      && (|r.values| == SampleSize || |r.values| == |loaded.value.rows|)
      && forall i :: 0 <= i < |r.values| ==>
           column in loaded.value.rows[i] && r.values[i] == loaded.value.rows[i][column]
  {
    match loaded
    case Err(message) => SampleFailed(message)
    case Ok(df) =>
      if column !in df.columns then SampleColumnNotFound
      else Sampled(Head(ColumnValues(df, column), SampleSize))
  }

  // ---------------------------------------------------------------------
  // filter

  datatype FilterOutcome =
    | FilterFailed(message: string)   // load failure or invalid pattern
    | FilterColumnNotFound
    | NoMatches                        // nothing is written
    | Saved(path: string, table: Table)

  /** Which rows' cell text, as rendered by `astype(str)`, the pattern
      search accepts. */
  function MatchMask(t: Table, column: string, matches: string -> bool, render: Cell -> string): (m: seq<bool>)
    requires WellFormed(t) && column in t.columns
    ensures |m| == |t.rows|
  {
    seq(|t.rows|, i requires 0 <= i < |t.rows| => matches(render(t.rows[i][column])))
  }

  /** The boolean-mask selection `df[mask]`. */
  function FilterRows(t: Table, column: string, matches: string -> bool, render: Cell -> string): (r: Table)
    requires WellFormed(t) && column in t.columns
    ensures r.columns == t.columns
  {
    Table(t.columns, Mask(t.rows, MatchMask(t, column, matches, render)))
  }

  /** The file name used when no output is given:
      "filtered_" + basename with every ".csv" removed + "_" + column + ".csv". */
  function DerivedOutputName(source: string, column: string): string
  {
    FilteredPrefix + ReplaceAll(Basename(source), CsvExtension, "") + "_" + column + CsvExtension
  }

  /** `output or derived`: an absent or empty output falls back to the
      derived name. */
  function OutputName(source: string, column: string, output: Option<string>): (name: string)
    ensures output.Some? && output.value != "" ==> name == output.value
    ensures output.None? || output.value == "" ==> name == DerivedOutputName(source, column)
  {
    if output.Some? && output.value != "" then output.value else DerivedOutputName(source, column)
  }

  /** `filter`: load failure, absent column, invalid pattern, no match, or
      the matching rows saved under the chosen name. */
  function Filter(loaded: Result<Table>, column: string, pattern: Result<string -> bool>,
                  render: Cell -> string, source: string, output: Option<string>): FilterOutcome
    requires loaded.Ok? ==> WellFormed(loaded.value)
  {
    match loaded
    case Err(message) => FilterFailed(message)
    case Ok(df) =>
      if column !in df.columns then FilterColumnNotFound
      else
        match pattern
        case Err(message) => FilterFailed(message)
        case Ok(matches) =>
          var filtered := FilterRows(df, column, matches, render);
          if filtered.rows == [] then NoMatches
          else Saved(OutputName(source, column, output), filtered)
  }

  /** The filtered rows are the source rows read at the increasing positions
      of the matching rows, one for one: a repeated matching row is kept as
      often as it occurs. */
  lemma FilterRowsAt(t: Table, column: string, matches: string -> bool, render: Cell -> string)
    requires WellFormed(t) && column in t.columns
    ensures EmbedsAt(FilterRows(t, column, matches, render).rows, t.rows,
                     Positions(MatchMask(t, column, matches, render)))
    ensures forall i :: 0 <= i < |t.rows| ==>
      (i in Positions(MatchMask(t, column, matches, render)) <==> matches(render(t.rows[i][column])))
  {
    MaskAt(t.rows, MatchMask(t, column, matches, render));
  }

  /** The filtered table is well formed, its rows are an order-preserving
      subsequence of the source rows, every kept row matches, and every
      matching source row is kept. */
  lemma FilterRowsSpec(t: Table, column: string, matches: string -> bool, render: Cell -> string)
    requires WellFormed(t) && column in t.columns
    ensures WellFormed(FilterRows(t, column, matches, render))
    ensures IsSubsequence(FilterRows(t, column, matches, render).rows, t.rows)
    ensures forall k :: 0 <= k < |FilterRows(t, column, matches, render).rows| ==>
      var row := FilterRows(t, column, matches, render).rows[k];
      column in row && matches(render(row[column]))
    ensures forall i :: 0 <= i < |t.rows| && matches(render(t.rows[i][column])) ==>
      t.rows[i] in FilterRows(t, column, matches, render).rows
  {
    var keep := MatchMask(t, column, matches, render);
    var r := FilterRows(t, column, matches, render);
    var p := Positions(keep);
    MaskAt(t.rows, keep);
    MaskIsSubsequence(t.rows, keep);
    forall k | 0 <= k < |r.rows|
      ensures r.rows[k].Keys == ColumnSet(t.columns) && matches(render(r.rows[k][column]))
    {
      assert r.rows[k] == t.rows[p[k]] && keep[p[k]];
    }
    forall i | 0 <= i < |t.rows| && matches(render(t.rows[i][column]))
      ensures t.rows[i] in r.rows
    {
      assert keep[i];
      var k :| 0 <= k < |p| && p[k] == i;
      assert r.rows[k] == t.rows[i];
    }
  }

  /** Filtering the filtered table again with the same column and pattern
      changes nothing. */
  lemma FilterRowsIdempotent(t: Table, column: string, matches: string -> bool, render: Cell -> string)
    requires WellFormed(t) && column in t.columns
    ensures WellFormed(FilterRows(t, column, matches, render))
    ensures FilterRows(FilterRows(t, column, matches, render), column, matches, render)
         == FilterRows(t, column, matches, render)
  {
    var r := FilterRows(t, column, matches, render);
    FilterRowsSpec(t, column, matches, render);
    MaskKeepAll(r.rows, MatchMask(r, column, matches, render));
  }

  /** No row's cell text in `column` is accepted by the pattern. */
  predicate NoRowMatches(t: Table, column: string, matches: string -> bool, render: Cell -> string)
    requires WellFormed(t) && column in t.columns
  {
    forall i :: 0 <= i < |t.rows| ==> !matches(render(ColumnValues(t, column)[i]))
  }

  /** "No matches" is reported, and nothing saved, exactly when the table
      loaded, has the column, the pattern compiled, and no row matches. */
  lemma FilterNoMatches(loaded: Result<Table>, column: string, pattern: Result<string -> bool>,
                        render: Cell -> string, source: string, output: Option<string>)
    requires loaded.Ok? ==> WellFormed(loaded.value)
    ensures Filter(loaded, column, pattern, render, source, output).NoMatches? <==>
      && loaded.Ok? && column in loaded.value.columns && pattern.Ok?
      && NoRowMatches(loaded.value, column, pattern.value, render)
  {
    match loaded
    case Err(_) =>
    case Ok(t) =>
      if column in t.columns {
        match pattern
        case Err(_) =>
        case Ok(matches) =>
          var keep := MatchMask(t, column, matches, render);
          MaskEmpty(t.rows, keep);
          var values := ColumnValues(t, column);
          forall i | 0 <= i < |t.rows| ensures keep[i] == matches(render(values[i])) {
            assert values[i] == t.rows[i][column];
          }
      }
  }

  /** Every outcome of `filter` and exactly when it happens: a missing column
      is reported as such; a load error or an invalid pattern (compiled only
      once the column is found) fails; the matching rows are saved whenever
      some row matches. */
  lemma FilterOutcomes(loaded: Result<Table>, column: string, pattern: Result<string -> bool>,
                       render: Cell -> string, source: string, output: Option<string>)
    requires loaded.Ok? ==> WellFormed(loaded.value)
    ensures Filter(loaded, column, pattern, render, source, output).FilterColumnNotFound? <==>
      loaded.Ok? && column !in loaded.value.columns
    ensures Filter(loaded, column, pattern, render, source, output).FilterFailed? <==>
      loaded.Err? || (column in loaded.value.columns && pattern.Err?)
    ensures Filter(loaded, column, pattern, render, source, output).Saved? <==>
      && loaded.Ok? && column in loaded.value.columns && pattern.Ok?
      && !NoRowMatches(loaded.value, column, pattern.value, render)
  {
    FilterNoMatches(loaded, column, pattern, render, source, output);
  }

  /** A saved result is non-empty, holds exactly the matching rows, and is
      saved under the given output name or else the derived one; filtering
      it again saves the same table. */
  lemma FilterSaved(loaded: Result<Table>, column: string, pattern: Result<string -> bool>,
                    render: Cell -> string, source: string, output: Option<string>,
                    source': string, output': Option<string>)
    requires loaded.Ok? ==> WellFormed(loaded.value)
    requires Filter(loaded, column, pattern, render, source, output).Saved?
    ensures var r := Filter(loaded, column, pattern, render, source, output);
      && loaded.Ok? && pattern.Ok?
      && r.table.rows != []
      && r.table == FilterRows(loaded.value, column, pattern.value, render)
      && r.path == OutputName(source, column, output)
      && WellFormed(r.table)
      && Filter(Ok(r.table), column, pattern, render, source', output')
         == Saved(OutputName(source', column, output'), r.table)
  {
    FilterRowsIdempotent(loaded.value, column, pattern.value, render);
  }

  /** The derived name starts with "filtered_" and ends with
      "_" + column + ".csv". */
  lemma DerivedOutputNameShape(source: string, column: string)
    ensures FilteredPrefix <= DerivedOutputName(source, column)
    ensures EndsWith(DerivedOutputName(source, column), "_" + column + CsvExtension)
  {
    var stem := ReplaceAll(Basename(source), CsvExtension, "");
    assert DerivedOutputName(source, column) == FilteredPrefix + stem + ("_" + column + CsvExtension);
  }

  /** For a file "<stem>.csv" whose stem does not contain ".csv", the derived
      name is "filtered_<stem>_<column>.csv". */
  lemma DerivedOutputNameOfStem(source: string, column: string, stem: string)
    requires Basename(source) == stem + CsvExtension
    requires !Contains(stem, CsvExtension)
    ensures DerivedOutputName(source, column) == FilteredPrefix + stem + "_" + column + CsvExtension
  {
    RemoveCsvAfterStem(stem, []);
    assert stem + CsvExtension + [] == stem + CsvExtension;
  }

  /** A base name without ".csv" is kept whole: "data.txt" gives
      "filtered_data.txt_<column>.csv". */
  lemma DerivedOutputNameNoCsv(source: string, column: string)
    requires !Contains(Basename(source), CsvExtension)
    ensures DerivedOutputName(source, column) == FilteredPrefix + Basename(source) + "_" + column + CsvExtension
  {
    RemoveCsvNone(Basename(source));
  }

  /** Every ".csv" in the base name is removed, not only the extension:
      "<dir>/<a>.csv<b>.csv" gives "filtered_<a><b>_<column>.csv". */
  lemma DerivedOutputNameRemovesInnerCsv(dir: string, a: string, b: string, column: string)
    requires forall i :: 0 <= i < |a| ==> a[i] != '/'
    requires forall i :: 0 <= i < |b| ==> b[i] != '/'
    requires !Contains(a, CsvExtension) && !Contains(b, CsvExtension)
    ensures DerivedOutputName(dir + "/" + (a + CsvExtension + b + CsvExtension), column)
         == FilteredPrefix + a + b + "_" + column + CsvExtension
  {
    var base := a + CsvExtension + b + CsvExtension;
    forall i | 0 <= i < |base| ensures base[i] != '/' {
      if i < |a| { assert base[i] == a[i]; }
      else if i < |a| + 4 { assert base[i] == CsvExtension[i - |a|]; }
      else if i < |a| + 4 + |b| { assert base[i] == b[i - |a| - 4]; }
      else { assert base[i] == CsvExtension[i - |a| - 4 - |b|]; }
    }
    BasenameOfName(dir, base);
    assert base == a + CsvExtension + (b + CsvExtension);
    RemoveCsvAfterStem(a, b + CsvExtension);
    RemoveCsvAfterStem(b, []);
    assert b + CsvExtension + [] == b + CsvExtension;
    assert ReplaceAll([], CsvExtension, "") == [];
    assert b + [] == b;
    assert ReplaceAll(base, CsvExtension, "") == a + b;
  }
}

=== FILE: discovery.dfy ===
/** Discovery of the delimited files under a directory tree. The walk
    itself is an input: the sequence of steps `os.walk` yields, each a
    directory and the names listed in it. */
module Discovery {
  import opened Names

  datatype WalkStep = WalkStep(root: string, dirs: seq<string>, files: seq<string>)

  predicate IsCsv(name: string)
  {
    EndsWith(name, CsvExtension)
  }

  /** The paths of the ".csv" files of one directory, in listing order. */
  function CsvFilesIn(root: string, files: seq<string>): seq<string>
  {
    if files == [] then []
    else
      var name := files[|files| - 1];
      CsvFilesIn(root, files[..|files| - 1]) + (if IsCsv(name) then [Join(root, name)] else [])
  }

  /** The paths of all ".csv" files, directory by directory in walk order. */
  function CsvPaths(walk: seq<WalkStep>): seq<string>
  {
    if walk == [] then []
    else
      var step := walk[|walk| - 1];
      CsvPaths(walk[..|walk| - 1]) + CsvFilesIn(step.root, step.files)
  }

  /** The nested loop that collects `csv_files`: the outer loop runs over
      the walk, the inner one over the names listed in one directory. */
  method FindCsvFiles(walk: seq<WalkStep>) returns (csvFiles: seq<string>)
    ensures csvFiles == CsvPaths(walk)
  {
    csvFiles := [];
    var d := 0;
    while d < |walk|
      invariant 0 <= d <= |walk|
      invariant csvFiles == CsvPaths(walk[..d])
    {
      ghost var found := csvFiles;
      var step := walk[d];
      var i := 0;
      while i < |step.files|
        invariant 0 <= i <= |step.files|
        invariant csvFiles == found + CsvFilesIn(step.root, step.files[..i])
      {
        var file := step.files[i];
        assert step.files[..i + 1][..i] == step.files[..i];
        assert CsvFilesIn(step.root, step.files[..i + 1])
          == CsvFilesIn(step.root, step.files[..i]) + (if IsCsv(file) then [Join(step.root, file)] else []);
        if IsCsv(file) {
          csvFiles := csvFiles + [Join(step.root, file)];
        }
        i := i + 1;
      }
      assert step.files[..i] == step.files;
      assert walk[..d + 1][..d] == walk[..d];
      assert CsvPaths(walk[..d + 1]) == CsvPaths(walk[..d]) + CsvFilesIn(step.root, step.files);
      d := d + 1;
    }
    assert walk[..d] == walk;
  }

  /** Walk order is kept: the files of earlier steps come first. */
  lemma {:induction false} CsvPathsAppend(w1: seq<WalkStep>, w2: seq<WalkStep>)
    ensures CsvPaths(w1 + w2) == CsvPaths(w1) + CsvPaths(w2)
  {
    if w2 == [] {
      assert w1 + w2 == w1;
    } else {
      var n := |w2| - 1;
      CsvPathsAppend(w1, w2[..n]);
      assert (w1 + w2)[..|w1 + w2| - 1] == w1 + w2[..n];
    }
  }

  /** Listing order is kept within a directory: the paths of the earlier
      names come first. */
  lemma {:induction false} CsvFilesInAppend(root: string, f1: seq<string>, f2: seq<string>)
    ensures CsvFilesIn(root, f1 + f2) == CsvFilesIn(root, f1) + CsvFilesIn(root, f2)
  {
    if f2 == [] {
      assert f1 + f2 == f1;
    } else {
      var n := |f2| - 1;
      var last := f2[n];
      var tail := if IsCsv(last) then [Join(root, last)] else [];
      CsvFilesInAppend(root, f1, f2[..n]);
      assert (f1 + f2)[..|f1 + f2| - 1] == f1 + f2[..n];
      assert (f1 + f2)[|f1 + f2| - 1] == last;
      assert CsvFilesIn(root, f1 + f2) == CsvFilesIn(root, f1 + f2[..n]) + tail;
      assert CsvFilesIn(root, f2) == CsvFilesIn(root, f2[..n]) + tail;
    }
  }

  /** A single listed name yields its path exactly when it ends in ".csv". */
  lemma CsvFilesInOne(root: string, f: string)
    ensures CsvFilesIn(root, [f]) == if IsCsv(f) then [Join(root, f)] else []
  {
    assert [f][..0] == [];
  }

  /** Within a directory: every ".csv" name yields its path, and every path
      comes from a ".csv" name. */
  lemma {:induction false} CsvFilesInExactly(root: string, files: seq<string>)
    ensures forall p :: p in CsvFilesIn(root, files) <==>
      exists f :: f in files && IsCsv(f) && p == Join(root, f)
  {
    if files != [] {
      var n := |files| - 1;
      CsvFilesInExactly(root, files[..n]);
      assert files == files[..n] + [files[n]];
    }
  }

  /** Only names ending in ".csv" are collected, each as the path of a file
      listed in the walk; and every such file is collected. */
  lemma {:induction false} CsvPathsExactly(walk: seq<WalkStep>)
    ensures forall p :: p in CsvPaths(walk) <==>
      exists s, f :: s in walk && f in s.files && IsCsv(f) && p == Join(s.root, f)
  {
    if walk != [] {
      var n := |walk| - 1;
      CsvPathsExactly(walk[..n]);
      CsvFilesInExactly(walk[n].root, walk[n].files);
      assert walk == walk[..n] + [walk[n]];
    }
  }

  /** Every collected path itself ends in ".csv". */
  lemma CsvPathsEndInCsv(walk: seq<WalkStep>)
    ensures forall p :: p in CsvPaths(walk) ==> EndsWith(p, CsvExtension)
  {
    CsvPathsExactly(walk);
    forall p | p in CsvPaths(walk)
      ensures EndsWith(p, CsvExtension)
    {
      var s, f :| s in walk && f in s.files && IsCsv(f) && p == Join(s.root, f);
      EndsWithTrans(p, f, CsvExtension);
    }
  }

  /** The walk yields no path exactly when no listed name ends in ".csv". */
  lemma CsvPathsEmpty(walk: seq<WalkStep>)
    ensures CsvPaths(walk) == [] <==>
      forall s, f :: s in walk && f in s.files ==> !IsCsv(f)
  {
    CsvPathsExactly(walk);
    if CsvPaths(walk) != [] {
      assert CsvPaths(walk)[0] in CsvPaths(walk);
    }
    forall s, f | s in walk && f in s.files && IsCsv(f)
      ensures CsvPaths(walk) != []
    {
      assert Join(s.root, f) in CsvPaths(walk);
    }
  }
}

=== FILE: names.dfy ===
/** String operations the program applies to column names and file names:
    `str.lower`, `str.replace`, `str.endswith`, `os.path.basename` and
    `os.path.join`. */
module Names {

  predicate IsUpper(c: char) { 'A' <= c <= 'Z' }

  /** Lower-casing of one character (ASCII letters only). */
  function LowerChar(c: char): char
  {
    if IsUpper(c) then (c as int + 32) as char else c
  }

  function Lower(s: string): (r: string)
    ensures |r| == |s|
    ensures forall i :: 0 <= i < |s| ==> r[i] == LowerChar(s[i])
  {
    seq(|s|, i requires 0 <= i < |s| => LowerChar(s[i]))
  }

  /** `s.replace(pat, rep)`: scans left to right and replaces every
      non-overlapping occurrence of `pat`. */
  function ReplaceAll(s: string, pat: string, rep: string): string
    requires pat != []
    decreases |s|
  {
    if |s| < |pat| then s
    else if s[..|pat|] == pat then rep + ReplaceAll(s[|pat|..], pat, rep)
    else [s[0]] + ReplaceAll(s[1..], pat, rep)
  }

  /** An occurrence of `pat` is replaced and the scan resumes after it. */
  lemma ReplaceAllHit(rest: string, pat: string, rep: string)
    requires pat != []
    ensures ReplaceAll(pat + rest, pat, rep) == rep + ReplaceAll(rest, pat, rep)
  {
    var s := pat + rest;
    assert s[..|pat|] == pat && s[|pat|..] == rest;
  }

  /** Replacing one character by another rewrites each position on its own. */
  lemma {:induction false} ReplaceCharAt(s: string, a: char, b: char)
    ensures |ReplaceAll(s, [a], [b])| == |s|
    ensures forall i :: 0 <= i < |s| ==>
      ReplaceAll(s, [a], [b])[i] == (if s[i] == a then b else s[i])
  {
    if |s| > 0 {
      ReplaceCharAt(s[1..], a, b);
      var r, r' := ReplaceAll(s, [a], [b]), ReplaceAll(s[1..], [a], [b]);
      assert s[..1] == [s[0]];
      assert r == (if s[0] == a then [b] else [s[0]]) + r';
      forall i | 0 <= i < |s|
        ensures r[i] == (if s[i] == a then b else s[i])
      {
        if i > 0 { assert r[i] == r'[i - 1] && s[1..][i - 1] == s[i]; }
      }
    }
  }

  /** The canonical form of one character of a column name. */
  function NormalizeChar(c: char): char
  {
    if c == ' ' then '_' else LowerChar(c)
  }

  /** Column-name normalisation: lower-case, then every space becomes `_`. */
  function NormalizeName(name: string): string
  {
    ReplaceAll(Lower(name), " ", "_")
  }

  /** Normalisation works character by character: it lower-cases ASCII
      letters, turns spaces into underscores and leaves every other
      character where it was. */
  lemma NormalizeNameAt(name: string)
    ensures |NormalizeName(name)| == |name|
    ensures forall i :: 0 <= i < |name| ==> NormalizeName(name)[i] == NormalizeChar(name[i])
  {
    ReplaceCharAt(Lower(name), ' ', '_');
  }

  /** A normalised name has no upper-case letter and no space. */
  predicate IsNormalized(name: string)
  {
    forall i :: 0 <= i < |name| ==> !IsUpper(name[i]) && name[i] != ' '
  }

  lemma NormalizeNameIsNormalized(name: string)
    ensures IsNormalized(NormalizeName(name))
  {
    NormalizeNameAt(name);
  }

  /** Names that are already normalised are left as they are. */
  lemma NormalizedNameFixed(name: string)
    requires IsNormalized(name)
    ensures NormalizeName(name) == name
  {
    NormalizeNameAt(name);
  }

  /** Normalising twice is the same as normalising once. */
  lemma NormalizeNameIdempotent(name: string)
    ensures NormalizeName(NormalizeName(name)) == NormalizeName(name)
  {
    NormalizeNameIsNormalized(name);
    NormalizedNameFixed(NormalizeName(name));
  }

  /** The list comprehension that renames every column. */
  function NormalizeNames(columns: seq<string>): (r: seq<string>)
    ensures |r| == |columns|
  {
    seq(|columns|, i requires 0 <= i < |columns| => NormalizeName(columns[i]))
  }

  /** Renaming keeps the number and the order of the columns, renames each
      one in place, and is idempotent. */
  lemma NormalizeNamesKeepsOrder(columns: seq<string>)
    ensures |NormalizeNames(columns)| == |columns|
    ensures forall i :: 0 <= i < |columns| ==>
      NormalizeNames(columns)[i] == NormalizeName(columns[i]) && IsNormalized(NormalizeNames(columns)[i])
    ensures NormalizeNames(NormalizeNames(columns)) == NormalizeNames(columns)
  {
    var r := NormalizeNames(columns);
    forall i | 0 <= i < |columns|
      ensures IsNormalized(r[i]) && NormalizeName(r[i]) == r[i]
    {
      NormalizeNameIdempotent(columns[i]);
      NormalizeNameIsNormalized(columns[i]);
    }
  }

  predicate EndsWith(s: string, suffix: string)
  {
    |suffix| <= |s| && s[|s| - |suffix|..] == suffix
  }

  lemma EndsWithTrans(s: string, t: string, u: string)
    requires EndsWith(s, t) && EndsWith(t, u)
    ensures EndsWith(s, u)
  {
    assert s[|s| - |u|..] == s[|s| - |t|..][|t| - |u|..];
  }

  predicate OccursAt(s: string, pat: string, i: nat)
  {
    i + |pat| <= |s| && s[i..i + |pat|] == pat
  }

  ghost predicate Contains(s: string, pat: string)
  {
    exists i: nat :: OccursAt(s, pat, i)
  }

  /** `os.path.join(root, name)` for POSIX paths. */
  function Join(root: string, name: string): (p: string)
    ensures EndsWith(p, name)
  {
    if |name| > 0 && name[0] == '/' then name
    else if root == [] || root[|root| - 1] == '/' then root + name
    else root + "/" + name
  }

  /** `os.path.basename(path)`: everything after the last `/`. */
  function Basename(path: string): (b: string)
    ensures EndsWith(path, b)
    ensures forall i :: 0 <= i < |b| ==> b[i] != '/'
    ensures |b| < |path| ==> path[|path| - |b| - 1] == '/'
  {
    if path == [] || path[|path| - 1] == '/' then []
    else Basename(path[..|path| - 1]) + [path[|path| - 1]]
  }

  /** The base name of "<dir>/<name>" is the name when it has no `/`. */
  lemma {:induction false} BasenameOfName(dir: string, name: string)
    requires forall i :: 0 <= i < |name| ==> name[i] != '/'
    ensures Basename(dir + "/" + name) == name
  {
    if name != [] {
      var n := |name| - 1;
      BasenameOfName(dir, name[..n]);
      assert (dir + "/" + name)[..|dir + "/" + name| - 1] == dir + "/" + name[..n];
      assert name[..n] + [name[n]] == name;
    }
  }

  const CsvExtension := ".csv"

  /** ".csv" does not occur at the start of `stem + ".csv"` unless it
      already occurs in `stem`: it has no proper prefix that is also a suffix. */
  lemma CsvNotAtStart(stem: string)
    requires stem != [] && !Contains(stem, CsvExtension)
    ensures !OccursAt(stem + CsvExtension, CsvExtension, 0)
  {
    var s := stem + CsvExtension;
    if |stem| >= 4 {
      assert stem[0..4] == s[0..4];
      assert !OccursAt(stem, CsvExtension, 0);
    } else {
      assert s[|stem|] == '.' != CsvExtension[|stem|];
    }
  }

  lemma ContainsTail(stem: string)
    requires stem != [] && !Contains(stem, CsvExtension)
    ensures !Contains(stem[1..], CsvExtension)
  {
    if Contains(stem[1..], CsvExtension) {
      var i: nat :| OccursAt(stem[1..], CsvExtension, i);
      assert stem[i + 1..i + 5] == stem[1..][i..i + 4];
      assert OccursAt(stem, CsvExtension, i + 1);
    }
  }

  /** Removing every ".csv" from `stem + ".csv" + rest`, where the stem
      contains no ".csv", keeps the stem and goes on with the rest. */
  lemma {:induction false} RemoveCsvAfterStem(stem: string, rest: string)
    requires !Contains(stem, CsvExtension)
    ensures ReplaceAll(stem + CsvExtension + rest, CsvExtension, "") == stem + ReplaceAll(rest, CsvExtension, "")
  {
    var s := stem + CsvExtension + rest;
    if stem == [] {
      assert s == CsvExtension + rest;
      ReplaceAllHit(rest, CsvExtension, "");
    } else {
      CsvNotAtStart(stem);
      assert (stem + CsvExtension)[..4] == s[..4];
      ContainsTail(stem);
      RemoveCsvAfterStem(stem[1..], rest);
      assert s[1..] == stem[1..] + CsvExtension + rest;
      assert s[..4] != CsvExtension;
      assert ReplaceAll(s, CsvExtension, "") == [s[0]] + ReplaceAll(s[1..], CsvExtension, "");
      assert [stem[0]] + stem[1..] == stem;
    }
  }

  /** Text that contains no ".csv" comes through the removal unchanged. */
  lemma {:induction false} RemoveCsvNone(s: string)
    requires !Contains(s, CsvExtension)
    ensures ReplaceAll(s, CsvExtension, "") == s
  {
    if |s| >= |CsvExtension| {
      assert !OccursAt(s, CsvExtension, 0);
      ContainsTail(s);
      RemoveCsvNone(s[1..]);
      assert [s[0]] + s[1..] == s;
    }
  }
}

=== FILE: sequences.dfy ===
/** Selection of the elements of a sequence by a boolean mask, which is how
    the table library selects rows (`df[mask]`), and order-preserving
    subsequences. */
module Sequences {

  /** The elements of `xs` whose mask entry is true, in their original order. */
  function Mask<T>(xs: seq<T>, keep: seq<bool>): (r: seq<T>)
    requires |keep| == |xs|
    ensures |r| <= |xs|
    ensures forall k :: 0 <= k < |r| ==> r[k] in xs
  {
    if xs == [] then []
    else Mask(xs[..|xs| - 1], keep[..|xs| - 1]) + (if keep[|xs| - 1] then [xs[|xs| - 1]] else [])
  }

  /** The indices at which the mask is true, in increasing order. */
  function Positions(keep: seq<bool>): (p: seq<nat>)
    ensures |p| <= |keep|
    ensures forall k :: 0 <= k < |p| ==> p[k] < |keep| && keep[p[k]]
  {
    if keep == [] then []
    else Positions(keep[..|keep| - 1]) + (if keep[|keep| - 1] then [|keep| - 1] else [])
  }

  ghost predicate Increasing(p: seq<nat>)
  {
    forall i, j :: 0 <= i < j < |p| ==> p[i] < p[j]
  }

  /** `sub` is found in `full` at the increasing positions `idx`. */
  ghost predicate EmbedsAt<T>(sub: seq<T>, full: seq<T>, idx: seq<nat>)
  {
    && |idx| == |sub|
    && Increasing(idx)
    && forall k :: 0 <= k < |idx| ==> idx[k] < |full| && sub[k] == full[idx[k]]
  }

  ghost predicate IsSubsequence<T>(sub: seq<T>, full: seq<T>)
  {
    exists idx :: EmbedsAt(sub, full, idx)
  }

  /** Positions lists every true index of the mask, each once, in increasing order. */
  lemma {:induction false} PositionsComplete(keep: seq<bool>)
    ensures Increasing(Positions(keep))
    ensures forall i :: 0 <= i < |keep| && keep[i] ==> i in Positions(keep)
  {
    if keep != [] {
      var n := |keep| - 1;
      PositionsComplete(keep[..n]);
      forall i | 0 <= i < |keep| && keep[i]
        ensures i in Positions(keep)
      {
        if i < n {
          assert keep[..n][i] == keep[i];
        }
      }
    }
  }

  /** The masked sequence is `xs` read at the positions of the mask:
      it keeps every element whose mask entry is true, and only those,
      in their original order. */
  lemma {:induction false} MaskAt<T>(xs: seq<T>, keep: seq<bool>)
    requires |keep| == |xs|
    ensures EmbedsAt(Mask(xs, keep), xs, Positions(keep))
    ensures forall i :: 0 <= i < |xs| && keep[i] ==> i in Positions(keep)
  {
    PositionsComplete(keep);
    if xs != [] {
      var n := |xs| - 1;
      MaskAt(xs[..n], keep[..n]);
      var r, p := Mask(xs, keep), Positions(keep);
      var r', p' := Mask(xs[..n], keep[..n]), Positions(keep[..n]);
      assert |r| == |p|;
      forall k | 0 <= k < |p|
        ensures p[k] < |xs| && r[k] == xs[p[k]]
      {
        if k < |p'| {
          assert r[k] == r'[k] && p[k] == p'[k];
        }
      }
    }
  }

  lemma MaskIsSubsequence<T>(xs: seq<T>, keep: seq<bool>)
    requires |keep| == |xs|
    ensures IsSubsequence(Mask(xs, keep), xs)
  {
    MaskAt(xs, keep);
  }

  /** A mask that keeps everything is the identity. */
  lemma {:induction false} MaskKeepAll<T>(xs: seq<T>, keep: seq<bool>)
    requires |keep| == |xs|
    requires forall i :: 0 <= i < |xs| ==> keep[i]
    ensures Mask(xs, keep) == xs
  {
    if xs != [] {
      var n := |xs| - 1;
      assert forall i :: 0 <= i < n ==> keep[..n][i];
      MaskKeepAll(xs[..n], keep[..n]);
      assert xs[..n] + [xs[n]] == xs;
    }
  }

  /** A mask selects nothing exactly when none of its entries is set. */
  lemma MaskEmpty<T>(xs: seq<T>, keep: seq<bool>)
    requires |keep| == |xs|
    ensures Mask(xs, keep) == [] <==> forall i :: 0 <= i < |xs| ==> !keep[i]
  {
    MaskAt(xs, keep);
    if Mask(xs, keep) != [] {
      assert keep[Positions(keep)[0]];
    }
    forall i | 0 <= i < |xs| && keep[i] ensures Mask(xs, keep) != [] {
      assert i in Positions(keep);
    }
  }
}

=== FILE: tables.dfy ===
/** The abstract table the commands work on: an ordered list of column names
    and an ordered list of rows, each row mapping a column name to a cell. */
module Tables {

  /** The outcome of an operation that the program guards with try/except. */
  datatype Result<T> = Ok(value: T) | Err(message: string)

  datatype Option<T> = None | Some(value: T)

  /** A cell either holds the value read from the file or is missing
      (an empty field, or a column its source table did not have).
      `Present(raw)` stands for the parsed value, after each column has one
      type, so two cells are equal exactly when the library treats their
      values as equal. */
  datatype Cell = Missing | Present(raw: string)

  type Row = map<string, Cell>

  datatype Table = Table(columns: seq<string>, rows: seq<Row>)

  predicate Distinct<T(==)>(xs: seq<T>)
  {
    forall i, j :: 0 <= i < j < |xs| ==> xs[i] != xs[j]
  }

  function ColumnSet(columns: seq<string>): set<string>
  {
    set c | c in columns
  }

  /** Column names are unique and every row has exactly the table's columns. */
  predicate WellFormed(t: Table)
  {
    && Distinct(t.columns)
    && forall j :: 0 <= j < |t.rows| ==> t.rows[j].Keys == ColumnSet(t.columns)
  }
}
